=== FILE: README.md ===
# TripAdvisor review scraper: a Dafny model of its parsing core

`WebScraping.py` crawls TripAdvisor hotel review pages. It defines
`review_pages`, which works out the URLs of a hotel's other review pages
from the page-number links, but does not call it: both crawl loops take
their list of pages from a CSV file (`WebScraping.py:258-261`,
`302-305`). On each page the crawl reads every review box, and each box
becomes one record: reviewer, review id, date, counters, star rating,
review text, date of stay, trip type, per-category ratings and the
hotel's response. The record is written as one line of a
JSON-lines stream.

This project models the deterministic part of that work as pure Dafny
functions and proves what each one does:

- `Pagination` models `review_pages` as defined, although no crawl loop
  calls it. It turns the `pageNum` anchors into the known links in
  document order. When the last two page numbers leave
  a gap, it adds one synthesised `Reviews-or<offset>` URL per missing page,
  five reviews per page.
- `Extractors` models the field extractors: `count_reviews`, `review_date`,
  `reviewer_contribution`, `review_helpful_votes`, `review_star`,
  `date_of_stay`, `trip_type`, `ratings_detail` and `response_details`.
  It also has the plain lookups (`reviewer_name`, `reviewer_profile`,
  `review_id`, `reviewer_location`).
- `Record` assembles one record per review box, builds the dict written
  for it, and runs the crawl loop over several pages.
- `PyStr`, `Scans` and `Dict` support the rest. `PyStr` models the Python
  behaviour the extractors rely on: `str.strip()`, `str.replace`, `int()`
  on text and `str()` on integers. `Scans` models the fixed regular
  expressions as left-to-right scans. `Dict` models an insertion-ordered
  `dict`.

The HTML parser is not modelled. Each `find(...)` becomes an input:

- the element's text, or the attribute, as `Option<string>`, with `None`
  when the element or attribute is missing;
- `str(box)` as a markup string;
- for the counters, the parent text of the first text node the pattern
  matches.

The source has three absent markers, and the model keeps them apart:

- `None` is `Option.None`.
- `np.nan` is `OrNaN.NaN`.
- `""` stays the empty string.

Where the source catches an exception, the model returns that function's
absent marker.

Five points are modelled exactly as the code behaves, even where a reader
might expect otherwise:

- The page numbers are taken in document order and never sorted
  (`WebScraping.py:96-99`).
- The star value is the raw bubble-class number, never divided by 10
  (`WebScraping.py:197`). A 5-bubble review reads 50.
- `review_id` is annotated `-> int`, but it returns the `data-reviewid`
  attribute text unconverted, or `NaN` (`WebScraping.py:142-148`).
- `str.replace` with an empty target (`PyStr.Interleave`) is modelled as
  Python defines it. No call in the scraper reaches it, because every
  target is nonempty: the literals `' reviews'`, `'Date of stay: '` and
  `'Trip type: '`, and at `WebScraping.py:155` the reviewer name followed by the
  literal `' wrote a review '`.
- `int()` on text does not skip all of `str.isspace`. CPython copies
  ASCII characters through and then skips only the C-locale blanks, so
  the information separators U+001C to U+001F make `int()` fail wherever
  they appear, although `strip()` removes them (`PyStr.ParseInt`). An
  anchor text `"\x1c2"` therefore makes `review_pages` return `None`.

## Model

| member | source | states |
|---|---|---|
| `Pagination.CollectLinks` | WebScraping.py:89-94 | the per-anchor loop yields a value exactly when every anchor has an `href` and an integer text; then it holds one `(href, int(text))` row per anchor, in document order |
| `Pagination.StrideRange` | WebScraping.py:103 | `range(start, stop, 5)` has `ceil((stop-start)/5)` elements (none when `start >= stop`), and the j-th is `start + 5j` |
| `Pagination.ResolvePages` | WebScraping.py:96-109 | after the loop: absent exactly when there are no rows; otherwise it starts with every row's href, in row order |
| `Pagination.ReviewPages` | WebScraping.py:85-111 | absent exactly when there are no anchors, or some anchor lacks an `href` or has a non-integer text; otherwise it starts with every known href, unchanged and in document order |
| `Pagination.ReviewPagesRejectsSeparator` | WebScraping.py:93 | an anchor text with a U+001C to U+001F character anywhere, such as `"\x1c2"`, makes the result `None` |
| `Pagination.ReviewPagesVerbatim` | WebScraping.py:96-109 | with one anchor, or a difference of at most 1 between the last two page numbers (including equal or decreasing ones, since nothing is sorted), the result is exactly the hrefs in document order |
| `Pagination.ReviewPagesGapFill` | WebScraping.py:98-105 | when the last page number exceeds the one before by more than 1, the result is the hrefs followed by exactly `last - prev - 1` URLs; the j-th is the first href with its offset set to `prev*5 + 5j` |
| `Pagination.MissingOffsets` | WebScraping.py:103 | the synthesised offsets number `last - prev - 1`, are multiples of 5, strictly increase, and lie in `[prev*5, (last-1)*5)` |
| `Pagination.OffsetLink` | WebScraping.py:104 | `re.sub(r"Reviews\-or\d+", f"Reviews-or{i}", template_link)`; pinned down by `OffsetLinkWithoutToken` and `OffsetLinkRewritesOffset` |
| `Pagination.MissingLinks` | WebScraping.py:103-104 | the URLs the gap loop appends, one per offset of `range(prev*5, (last-1)*5, 5)`; pinned down by `MissingOffsets` and `ReviewPagesGapFill` |
| `Pagination.OffsetLinkWithoutToken` | WebScraping.py:100-104 | a first href without `Reviews-or<digits>` is copied unchanged into every synthesised URL |
| `Pagination.OffsetLinkRewritesOffset` | WebScraping.py:100-104 | a first href with one `Reviews-or<digits>` differs in a synthesised URL only in those digits, which become `str(offset)` |
| `Extractors.CountReviews` | WebScraping.py:76-82 | a missing count element gives `None` |
| `Extractors.CountReviewsReadsCount` | WebScraping.py:80 | the text `"<n> reviews"` reads back as `n`, for every integer `n` |
| `Extractors.CountReviewsSingularIsAbsent` | WebScraping.py:80 | the singular `"<n> review"` is not stripped, so `int()` fails and the count is `None` |
| `Extractors.ReviewDate` | WebScraping.py:151-157 | a missing date element gives `""` |
| `Extractors.ReviewDateReadsDate` | WebScraping.py:155 | `"<name> wrote a review <date>"` gives back `<date>`; the name is `""` when the reviewer link is missing |
| `Extractors.Counter` | WebScraping.py:169-177 | no matching text node gives `NaN` |
| `Extractors.CounterReadsCount` | WebScraping.py:173-176 | `"<n><w><label>"`, singular or plural, reads back as `n`, including 0, where `w` is any run of the whitespace `int()` skips |
| `Extractors.CounterWithoutNumber` | WebScraping.py:175-177 | a label with no number is `NaN`, not 0 |
| `Extractors.ReviewerContribution` | WebScraping.py:169-177 | `reviewer_contribution`; pinned down by `ContributionsReadBack`, `CounterReadsCount` and `CounterWithoutNumber` |
| `Extractors.ReviewHelpfulVotes` | WebScraping.py:180-188 | `review_helpful_votes`; pinned down by `HelpfulVotesReadBack`, `CounterReadsCount` and `CounterWithoutNumber` |
| `Extractors.ContributionsReadBack` | WebScraping.py:169-177 | `"<n> contribution(s)"` reads as `n`; `"contribution(s)"` alone reads as `NaN` |
| `Extractors.HelpfulVotesReadBack` | WebScraping.py:180-188 | `"<n> helpful vote(s)"` reads as `n`; `"helpful vote(s)"` alone reads as `NaN` |
| `Extractors.ReviewStar` | WebScraping.py:191-200 | `NaN` exactly when the markup has no `ui_bubble_rating bubble_<digits>`; otherwise the digits of the leftmost such match, unscaled |
| `Extractors.NumberAfterDigits` | WebScraping.py:197 | the greedy digit run after the match is exactly the digits placed there |
| `Extractors.ReviewStarReadsClass` | WebScraping.py:195-197 | markup whose first bubble class carries `n` reads as `n` |
| `Extractors.ReviewStarFiveBubbles` | WebScraping.py:191-200 | a `bubble_50` class gives 50, not 5 |
| `Extractors.StripLabel` | WebScraping.py:212-226 | present exactly when the element is present; the value is given by `StripLabelReadsValue` |
| `Extractors.StripLabelReadsValue` | WebScraping.py:216 | a labelled line with whitespace on either side gives back its value |
| `Extractors.DateOfStay` | WebScraping.py:212-218 | `date_of_stay`; present exactly when the element is, with its value given by `DateOfStayReadsValue` |
| `Extractors.TripType` | WebScraping.py:222-226 | `trip_type`; present exactly when the element is, with its value given by `TripTypeReadsValue` |
| `Extractors.DateOfStayReadsValue` | WebScraping.py:212-218 | `"  Date of stay: <v>  "` gives `<v>` |
| `Extractors.TripTypeReadsValue` | WebScraping.py:222-226 | `"  Trip type: <v>  "` gives `<v>` |
| `Extractors.ScoreKeyInjective` | WebScraping.py:236 | two category names give the same `<name>Score` key exactly when they are equal |
| `Extractors.RatingsDetail` | WebScraping.py:229-239 | the keys are distinct; there are at most as many entries as category nodes; the dict is empty (not absent) exactly when there are none |
| `Extractors.RatingsDetailKeys` | WebScraping.py:234-236 | a key is present exactly when it is some category name followed by `Score` |
| `Extractors.RatingsDetailLastWins` | WebScraping.py:235-236 | each key holds the `review_star` of the last node with that name |
| `Extractors.RatingsDetailDistinctNames` | WebScraping.py:234-237 | distinct names give one entry per node |
| `Extractors.RatingsDetailOrder` | WebScraping.py:234-236 | the keys come in the order of each name's first node, so a repeated name keeps its first place |
| `Extractors.ResponseDetails` | WebScraping.py:242-254 | all three response parts or none; present exactly when all three elements are found, and then they hold the found values |
| `Record.BuildRecord` | WebScraping.py:281-297 | the record carries the page's link and, in each field, the output of the extractor the source writes there (`count_reviews`, `review_date`, the two counters, `review_star`, `date_of_stay`, `trip_type`, `ratings_detail`, `response_details`), so the extractor lemmas above (`CountReviewsReadsCount`, `ReviewDateReadsDate`, `ContributionsReadBack`, `HelpfulVotesReadBack`, `ReviewStarReadsClass`, `DateOfStayReadsValue`, `TripTypeReadsValue`, `RatingsDetailLastWins`, `RatingsDetailOrder`) apply to it; hotel name, address and review text are the found text or `None`; reviewer name, profile and location are the found text or `""`; the review id is the found attribute text or `NaN`; a missing count, date or counter gives `None`, `""` or `NaN`; the ratings have distinct keys and the response is whole or empty |
| `Record.PageRecords` | WebScraping.py:280-297 | one record per review box, in box order, each the box's `BuildRecord`; every record of a page has the same link, hotel name, address and review count |
| `Record.ExtractAll` | WebScraping.py:263-298 | the stream has one record per review box over all pages |
| `Record.ExtractAllBlock` | WebScraping.py:263-298 | the records of the i-th page form one contiguous block of the stream, starting right after the records of the pages before it |
| `Record.ExtractAllLinks` | WebScraping.py:281 | every record carries the link of the page it came from |
| `Stream.FlatMapAppend` | WebScraping.py:263-298 | writing the records of two lists of items one after the other gives the concatenation of their streams |
| `Stream.FlatMapBlock` | WebScraping.py:280-298 | the entries of the i-th item form one block of the stream, right after those of the earlier items |
| `Record.ExtractAllAppend` | WebScraping.py:263-298 | processing two lists of pages one after the other gives the concatenation of their streams |
| `Record.RecordJson` | WebScraping.py:281-297 | the record dict has exactly the 17 keys, in the source's order |
| `Record.RatingsRoundTrip` | WebScraping.py:296 | the ratings dict can be read back into the entries it was written from |
| `Record.ResponseRoundTrip` | WebScraping.py:297 | the response dict can be read back into its three parts |
| `Record.RecordRoundTrip` | WebScraping.py:281-298 | reading the record dict back gives the same record: no field is lost, and `None`, `NaN` and `""` stay distinct |
| `PyStr.Strip` | WebScraping.py:216 | the result is no longer than the input, and neither starts nor ends with whitespace |
| `PyStr.StripPadded` | WebScraping.py:216 | `strip()` ignores whitespace added on either side |
| `PyStr.StripKeeps` | WebScraping.py:216 | a non-whitespace character of the input survives `strip()` |
| `PyStr.Replace` | WebScraping.py:80 | `str.replace`; pinned down by `ReplaceCopiesPrefix`, `ReplaceAbsent` and `ReplaceLeading` (also used at lines 155, 216 and 224) |
| `PyStr.ReplaceCopiesPrefix` | WebScraping.py:80 | `str.replace` copies through every character where no occurrence starts |
| `PyStr.ReplaceAbsent` | WebScraping.py:80 | a text without the target is left as it is |
| `PyStr.ReplaceLeading` | WebScraping.py:155 | a leading target is replaced, and the rest is kept |
| `PyStr.NatToString` | WebScraping.py:104 | `str(n)`: nonempty ASCII digits without a leading zero that spell `n` |
| `PyStr.IntToString` | WebScraping.py:104 | `str(n)` is nonempty and consists of digits and `-` |
| `PyStr.ParseInt` | WebScraping.py:93 | `int(text)`: a number is read only from a text made of `int()`'s whitespace, digits, `_` and signs, so any other character, an information separator U+001C to U+001F included, makes it fail; its reads are pinned down by `ParseIntToString` and `ParseIntPadding` |
| `PyStr.ParseIntToString` | WebScraping.py:93 | `int(str(n)) == n` for every integer |
| `PyStr.ParseIntPadding` | WebScraping.py:176 | `int()` ignores its own whitespace on either side: `str.isspace` characters other than U+001C to U+001F |
| `PyStr.ParseIntRejectsSeparator` | WebScraping.py:93 | a leading information separator makes `int()` fail although `strip()` would skip it |
| `Scans.DigitRun` | WebScraping.py:197 | the greedy `\d+` run: all digits, and followed by a non-digit or the end |
| `Scans.FirstNumbered` | WebScraping.py:196 | the leftmost match of `token\d+` at or after `k`, absent exactly when there is none |
| `Scans.SubNumbered` | WebScraping.py:104 | `re.sub(r"Reviews\-or\d+", repl, s)`; pinned down by `SubNumberedCopiesPrefix`, `SubNumberedAbsent` and `SubNumberedSingle` |
| `Scans.SubNumberedAbsent` | WebScraping.py:104 | `re.sub` leaves a text with no match unchanged |
| `Scans.SubNumberedSingle` | WebScraping.py:104 | with one match, `re.sub` replaces only the token and its digits |
| `Scans.SubNumberedCopiesPrefix` | WebScraping.py:104 | `re.sub` copies through every character where no match starts |
| `Scans.RemoveLabel` | WebScraping.py:175-176 | `re.sub(label + "s?", "", s)` for `contributions?` and, at lines 186-187, `helpful votes?`; pinned down by `RemoveLabelCopiesPrefix` and `RemoveLabelTrailing` |
| `Scans.RemoveLabelCopiesPrefix` | WebScraping.py:176 | `re.sub(label + "s?", "")` copies through every character where no label starts |
| `Scans.RemoveLabelTrailing` | WebScraping.py:176 | a trailing label, singular or plural, is removed entirely |
| `Scans.FirstNumberedAfter` | WebScraping.py:196 | the first match is the one right after a prefix that holds none |
| `Dict.Get` | WebScraping.py:236 | lookup finds a value exactly when some entry has the key, and the value is that entry's |
| `Dict.Set` | WebScraping.py:236 | `d[k] = v`: `k` then maps to `v`; other keys keep their values; an existing key keeps its place and a new key goes last; distinct keys stay distinct |

## Left out

- Command-line handling and the output-file checks (`WebScraping.py:20-41`) are configuration, with no logic to prove.
- The Selenium browser session, its waits and the "read more" click (`WebScraping.py:44-48`, `264-275`, `299`) are I/O. The page's HTML is an input to the model.
- Reading the CSV work lists, sorting them and slicing them by `--begin`/`--end`, opening local HTML files, and writing the JSON-lines stream (`WebScraping.py:257-263`, `302-310`) are file I/O. `Record.ExtractAll` takes the pages to process as its input.
- The two crawl loops are modelled once, as `Record.ExtractAll`, because their per-box records are the same (`WebScraping.py:280-298` and `311-329`).
- BeautifulSoup parsing (`get_page`, every `find`/`find_all`) is a foreign library. Each lookup's result is an input.
- `hotel_name`, `hotel_address` and `review_text` return an element's text or `None`. They are the identity on their input and have no row of their own; `Record.BuildRecord` states that the record holds the found text or `None`.
- `reviewer_name`, `reviewer_profile`, `review_id` and `reviewer_location` are lookups with a default (`""` or `NaN`). They have no row of their own; `Record.BuildRecord` states the found value or the default for each.
- `review_box` returning `None` (`WebScraping.py:115-121`) is left out. Iterating over `None` raises outside any `try`, so the run ends. The model takes a page's boxes as a sequence.
- `int()` and `\d` on non-ASCII Unicode digits are left out: the model accepts ASCII digits only. `strip()` skips the full `str.isspace` set. `int()` skips the same set except the information separators U+001C to U+001F, which make it fail wherever they appear.
- PyStr.ParseInt and PyStr.IntToString: CPython's limit on integer-string conversion (4300 digits by default since 3.11 and its security backports, configurable per process) is not modelled. Past it `int()` and `str()` raise, which turns `review_pages` and `count_reviews` into `None` and the counters into `NaN`; the model reads numbers of any length. The limit depends on the interpreter version and its settings, which the script does not fix. Page numbers themselves are Python integers (`tolist()`, `WebScraping.py:96`), unbounded as in the model.
- Extractors.ReviewStar: the same 4300-digit limit is not modelled for `int()` on the bubble digit run (`WebScraping.py:197`). Past it the source gives `NaN` for `review_star` and so for every `ratings_detail` value (`WebScraping.py:236`); the model reads a digit run of any length.
- The JSON text encoding of a record (`destination.write`) is left out. `Record.RecordJson` stops at the dict value, with `None`, `NaN`, integers, strings and nested dicts kept apart.
- Extractors.CountReviews: the contract states only the missing-element case. The successful reads are the lemmas `CountReviewsReadsCount` and `CountReviewsSingularIsAbsent`.
- Extractors.ReviewDate: the contract states only the missing-element case. The successful read is `ReviewDateReadsDate`.
- Extractors.Counter: the contract states only the missing-node case. The reads are `CounterReadsCount` and `CounterWithoutNumber`.
- Extractors.StripLabel: the contract states only presence. The value is stated by `StripLabelReadsValue`, `DateOfStayReadsValue` and `TripTypeReadsValue`.

=== FILE: dict.dfy ===
/** A Python `dict` as a sequence of entries in first-insertion order. */
module Dict {
  import opened Wrappers

  /** The keys, in the order the dict iterates them. */
  function Keys<K, V>(d: seq<(K, V)>): seq<K> {
    seq(|d|, i requires 0 <= i < |d| => d[i].0)
  }

  predicate DistinctKeys<K(==), V>(d: seq<(K, V)>) {
    forall i, j :: 0 <= i < j < |d| ==> d[i].0 != d[j].0
  }

  /** The position of the first entry with key `k`, if any. */
  function Find<K(==), V>(d: seq<(K, V)>, k: K): (r: Option<nat>)
    ensures r.Some? ==> r.value < |d| && d[r.value].0 == k
    ensures r.Some? ==> forall j :: 0 <= j < r.value ==> d[j].0 != k
    ensures r.None? <==> forall j :: 0 <= j < |d| ==> d[j].0 != k
    decreases |d|
  {
    if |d| == 0 then None
    else if d[0].0 == k then Some(0)
    else
      match Find(d[1..], k)
      case None => None
      case Some(i) => Some(i + 1)
  }

  /** `d.get(k)`. */
  function Get<K(==), V>(d: seq<(K, V)>, k: K): (r: Option<V>)
    ensures r.None? <==> forall i :: 0 <= i < |d| ==> d[i].0 != k
    ensures r.Some? ==> exists i :: 0 <= i < |d| && d[i] == (k, r.value)
  {
    match Find(d, k)
    case None => None
    case Some(i) => Some(d[i].1)
  }

  /** Two dicts with the same keys in the same order find every key at the
      same position. */
  lemma FindSameKeys<K, V>(a: seq<(K, V)>, b: seq<(K, V)>, k: K)
    requires |a| == |b| && forall i :: 0 <= i < |a| ==> a[i].0 == b[i].0
    ensures Find(a, k) == Find(b, k)
  {
    var x := Find(a, k);
    var y := Find(b, k);
    if x.Some? && y.Some? {
      assert a[y.value].0 == k;
      assert b[x.value].0 == k;
    }
  }

  /** Appending an entry with another key moves no key's first position. */
  lemma FindAppend<K, V>(d: seq<(K, V)>, e: (K, V), k: K)
    requires e.0 != k
    ensures Find(d + [e], k) == Find(d, k)
  {
    var x := Find(d + [e], k);
    var y := Find(d, k);
    assert forall i :: 0 <= i < |d| ==> (d + [e])[i] == d[i];
    if x.Some? && y.Some? {
      assert d[x.value].0 == k;
    }
  }

  /** `d[k] = v`: a key already present keeps its place and takes the new
      value; a new key goes last. */
  function Set<K(==,!new), V>(d: seq<(K, V)>, k: K, v: V): (r: seq<(K, V)>)
    ensures Get(r, k) == Some(v)
    ensures forall k' :: k' != k ==> Get(r, k') == Get(d, k')
    ensures Keys(r) == if Get(d, k).Some? then Keys(d) else Keys(d) + [k]
    ensures DistinctKeys(d) ==> DistinctKeys(r)
  {
    match Find(d, k)
    case Some(i) =>
      var r := d[i := (k, v)];
      assert Keys(r) == Keys(d);
      assert forall k' {:trigger Find(r, k')} :: Find(r, k') == Find(d, k') by {
        forall k' ensures Find(r, k') == Find(d, k') {
          FindSameKeys(r, d, k');
        }
      }
      r
    case None =>
      var r := d + [(k, v)];
      assert forall j :: 0 <= j < |d| ==> r[j] == d[j];
      assert r[|d|] == (k, v);
      assert Keys(r) == Keys(d) + [k];
      assert forall k' {:trigger Find(d, k')} :: k' != k ==> Find(r, k') == Find(d, k') by {
        forall k' | k' != k ensures Find(r, k') == Find(d, k') {
          FindAppend(d, (k, v), k');
        }
      }
      r
  }

  /** The position of the first `x` in `xs`, or `|xs|` when there is none. */
  function IndexOf<T(==)>(xs: seq<T>, x: T): (r: nat)
    ensures r <= |xs|
    ensures r < |xs| ==> xs[r] == x
    ensures forall j :: 0 <= j < r ==> xs[j] != x
    decreases |xs|
  {
    if |xs| == 0 then 0
    else if xs[0] == x then 0
    else 1 + IndexOf(xs[1..], x)
  }

  /** Appending to a sequence does not move an element already in it, and
      a new element lands at the end. */
  lemma {:induction false} IndexOfSnoc<T>(xs: seq<T>, y: T, x: T)
    ensures x in xs ==> IndexOf(xs + [y], x) == IndexOf(xs, x)
    ensures y !in xs ==> IndexOf(xs + [y], y) == |xs|
  {
    var s := xs + [y];
    if x in xs {
      var k := IndexOf(xs, x);
      var i := IndexOf(s, x);
      assert s[k] == x;
    }
    if y !in xs {
      var i := IndexOf(s, y);
      assert s[|xs|] == y;
    }
  }

  /** Every key of `ks` is one of `names`, and the keys come in the order
      of their first place in `names`. */
  predicate InFirstOrder<K(==)>(ks: seq<K>, names: seq<K>) {
    && (forall a :: 0 <= a < |ks| ==> ks[a] in names)
    && (forall a, b :: 0 <= a < b < |ks| ==> IndexOf(names, ks[a]) < IndexOf(names, ks[b]))
  }

  /** One more name keeps the order; a name seen for the first time may go last. */
  lemma InFirstOrderSnoc<K>(ks: seq<K>, names: seq<K>, k: K)
    requires InFirstOrder(ks, names)
    ensures InFirstOrder(ks, names + [k])
    ensures k !in names ==> InFirstOrder(ks + [k], names + [k])
  {
    forall x | x in names ensures IndexOf(names + [k], x) == IndexOf(names, x) {
      IndexOfSnoc(names, k, x);
    }
    if k !in names {
      IndexOfSnoc(names, k, k);
      var ks' := ks + [k];
      forall a | 0 <= a < |ks| ensures ks'[a] == ks[a] && IndexOf(names, ks[a]) < |names| {
      }
      assert ks'[|ks|] == k;
    }
  }

  /** `Set` keeps the keys in first-insertion order of the names set so far. */
  lemma SetInFirstOrder<K(!new), V>(d: seq<(K, V)>, names: seq<K>, k: K, v: V)
    requires InFirstOrder(Keys(d), names)
    requires Get(d, k).Some? <==> k in names
    ensures InFirstOrder(Keys(Set(d, k, v)), names + [k])
  {
    InFirstOrderSnoc(Keys(d), names, k);
  }
}

=== FILE: extractors.dfy ===
/** The field extractors. Each takes what the HTML parser would have located
    for it (an element's text or an attribute, absent when the element or the
    attribute is missing) and is total: where the source catches an
    exception, the extractor returns the field's absent marker instead. */
module Extractors {
  import opened Wrappers
  import opened PyStr
  import opened Scans
  import opened Dict

  const ReviewsSuffix := " reviews"
  const ContributionLabel := "contribution"
  const HelpfulLabel := "helpful vote"
  const WroteMarker := " wrote a review "
  const StayLabel := "Date of stay: "
  const TripLabel := "Trip type: "
  const BubbleClass := "ui_bubble_rating bubble_"
  const ScoreSuffix := "Score"

  // ---------------------------------------------------------------------------
  // Page level
  // ---------------------------------------------------------------------------

  /** `count_reviews`: the review-count text with every " reviews" removed,
      read as an integer; absent when the element is missing or the rest is
      not an integer. */
  function CountReviews(text: Option<string>): (r: Option<int>)
    ensures text.None? ==> r.None?
  {
    match text
    case None => None
    case Some(t) => ParseInt(Replace(t, ReviewsSuffix, ""))
  }

  /** The count as the page shows it, "<n> reviews", is read back. */
  lemma CountReviewsReadsCount(n: int)
    ensures CountReviews(Some(IntToString(n) + ReviewsSuffix)) == Some(n)
  {
    var digits := IntToString(n);
    NoOccurrenceWithoutLead(digits, ReviewsSuffix, ReviewsSuffix);
    ReplaceCopiesPrefix(digits, ReviewsSuffix, ReviewsSuffix, "");
    ReplaceLeading(ReviewsSuffix, [], "");
    assert ReviewsSuffix + [] == ReviewsSuffix;
    assert digits + ("" + []) == digits;
    ParseIntToString(n);
  }

  /** The singular "<n> review" is not stripped, so the count is absent. */
  lemma CountReviewsSingularIsAbsent(n: int)
    ensures CountReviews(Some(IntToString(n) + " review")) == None
  {
    var digits := IntToString(n);
    NoOccurrenceWithoutLead(digits, " review", ReviewsSuffix);
    ReplaceCopiesPrefix(digits, " review", ReviewsSuffix, "");
    ReplaceAbsent(" review", ReviewsSuffix, "");
    var s := digits + " review";
    assert s[|digits| + 1] == 'r';
  }

  // ---------------------------------------------------------------------------
  // Box level: plain lookups
  // ---------------------------------------------------------------------------

  /** `reviewer_name`: the empty string when the reviewer link is missing. */
  function ReviewerName(text: Option<string>): string {
    text.GetOr("")
  }

  /** `reviewer_profile`. */
  function ReviewerProfile(href: Option<string>): string {
    href.GetOr("")
  }

  /** `review_id`: the `data-reviewid` attribute as text, or `NaN`. */
  function ReviewId(attr: Option<string>): OrNaN<string> {
    match attr
    case None => NaN
    case Some(a) => Val(a)
  }

  /** `reviewer_location`. */
  function ReviewerLocation(text: Option<string>): string {
    text.GetOr("")
  }

  // ---------------------------------------------------------------------------
  // Box level: decoded texts
  // ---------------------------------------------------------------------------

  /** `review_date`: the date line with every "<reviewer name> wrote a review "
      removed (the name is empty when the reviewer link is missing). */
  function ReviewDate(nameText: Option<string>, dateText: Option<string>): (r: string)
    ensures dateText.None? ==> r == ""
  {
    match dateText
    case None => ""
    case Some(t) => Replace(t, ReviewerName(nameText) + WroteMarker, "")
  }

  /** The date line as the page shows it gives back the date. */
  lemma ReviewDateReadsDate(nameText: Option<string>, date: string)
    requires !Contains(date, ReviewerName(nameText) + WroteMarker)
    ensures ReviewDate(nameText, Some(ReviewerName(nameText) + WroteMarker + date)) == date
  {
    ReplaceLeading(ReviewerName(nameText) + WroteMarker, date, "");
  }

  /** The counters: the parent text of the first text node the label matches,
      with every `marker` (and an `s` right after it) removed, read as an
      integer; `NaN` when there is no such node or the rest is not an integer. */
  function Counter(parentText: Option<string>, marker: string): (r: OrNaN<int>)
    requires |marker| > 0
    ensures parentText.None? ==> r.NaN?
  {
    match parentText
    case None => NaN
    case Some(t) =>
      match ParseInt(RemoveLabel(t, marker))
      case None => NaN
      case Some(n) => Val(n)
  }

  /** `reviewer_contribution`: pattern `contributions?`. */
  function ReviewerContribution(parentText: Option<string>): OrNaN<int> {
    Counter(parentText, ContributionLabel)
  }

  /** `review_helpful_votes`: pattern `helpful votes?`. */
  function ReviewHelpfulVotes(parentText: Option<string>): OrNaN<int> {
    Counter(parentText, HelpfulLabel)
  }

  /** A counter line "<n><space><label>" or "<n><space><label>s" gives back n. */
  lemma CounterReadsCount(marker: string, n: int, sep: string, plural: string)
    requires |marker| > 0 && !IsDigit(marker[0]) && marker[0] != '-' && !IsSpace(marker[0])
    requires AllIntSpace(sep)
    requires plural == "" || plural == "s"
    ensures Counter(Some(IntToString(n) + sep + marker + plural), marker) == Val(n)
  {
    var digits := IntToString(n);
    var pre := digits + sep;
    forall i | 0 <= i < |pre| ensures pre[i] != marker[0] {
      if i < |digits| { assert pre[i] == digits[i]; } else { assert pre[i] == sep[i - |digits|]; }
    }
    NoOccurrenceWithoutLead(pre, marker + plural, marker);
    assert IntToString(n) + sep + marker + plural == pre + (marker + plural);
    RemoveLabelCopiesPrefix(pre, marker + plural, marker);
    RemoveLabelTrailing(marker, plural);
    assert pre + [] == "" + digits + sep;
    ParseIntPadding("", digits, sep);
    ParseIntToString(n);
  }

  /** A counter line with the label and no number is `NaN`, not 0. */
  lemma CounterWithoutNumber(marker: string, plural: string)
    requires |marker| > 0
    requires plural == "" || plural == "s"
    ensures Counter(Some(marker + plural), marker) == NaN
  {
    RemoveLabelTrailing(marker, plural);
  }

  lemma ContributionsReadBack(n: int, sep: string, plural: string)
    requires AllIntSpace(sep)
    requires plural == "" || plural == "s"
    ensures ReviewerContribution(Some(IntToString(n) + sep + ContributionLabel + plural)) == Val(n)
    ensures ReviewerContribution(Some(ContributionLabel + plural)) == NaN
  {
    CounterReadsCount(ContributionLabel, n, sep, plural);
    CounterWithoutNumber(ContributionLabel, plural);
  }

  lemma HelpfulVotesReadBack(n: int, sep: string, plural: string)
    requires AllIntSpace(sep)
    requires plural == "" || plural == "s"
    ensures ReviewHelpfulVotes(Some(IntToString(n) + sep + HelpfulLabel + plural)) == Val(n)
    ensures ReviewHelpfulVotes(Some(HelpfulLabel + plural)) == NaN
  {
    CounterReadsCount(HelpfulLabel, n, sep, plural);
    CounterWithoutNumber(HelpfulLabel, plural);
  }

  /** The number whose digits start at index `i` of `s`. */
  function NumberAfter(s: string, i: nat): nat
    requires i <= |s|
  {
    var d := s[i..];
    DigitsValue(d[..DigitRun(d)])
  }

  /** `review_star`: the number of the first `ui_bubble_rating bubble_<digits>`
      class in the markup, taken as it is (a 5-star rating reads 50), or `NaN`. */
  function ReviewStar(markup: string): (r: OrNaN<int>)
    ensures r.NaN? <==> forall i :: !NumberedAt(markup, BubbleClass, i)
    ensures r.Val? ==> exists i ::
              && NumberedAt(markup, BubbleClass, i)
              && (forall j :: 0 <= j < i ==> !NumberedAt(markup, BubbleClass, j))
              && r.value == NumberAfter(markup, i + |BubbleClass|)
  {
    match FirstNumbered(markup, BubbleClass, 0)
    case None => NaN
    case Some(i) => Val(NumberAfter(markup, i + |BubbleClass|))
  }

  /** The digits found at index `i` are the ones placed there. */
  lemma NumberAfterDigits(s: string, i: nat, digits: string, post: string)
    requires i <= |s| && s[i..] == digits + post
    requires forall k :: 0 <= k < |digits| ==> IsDigit(digits[k])
    requires post == [] || !IsDigit(post[0])
    ensures NumberAfter(s, i) == DigitsValue(digits)
  {
    DigitRunExact(digits, post);
    assert (digits + post)[..|digits|] == digits;
  }

  /** Markup whose first bubble class carries `n` reads as `n`. */
  lemma ReviewStarReadsClass(pre: string, n: nat, post: string)
    requires forall j :: 0 <= j < |pre| ==> !NumberedAt(pre + BubbleClass + NatToString(n) + post, BubbleClass, j)
    requires post == [] || !IsDigit(post[0])
    ensures ReviewStar(pre + BubbleClass + NatToString(n) + post) == Val(n)
  {
    var digits := NatToString(n);
    var s := pre + BubbleClass + digits + post;
    FirstNumberedAfter(pre, BubbleClass, digits, post);
    NumberAfterDigits(s, |pre| + |BubbleClass|, digits, post);
  }

  /** The rating of a 5-bubble review is 50: the class number is not scaled. */
  lemma ReviewStarFiveBubbles()
    ensures ReviewStar("<span class=\"" + BubbleClass + "50" + "\"></span>") == Val(50)
  {
    var pre := "<span class=\"";
    var post := "\"></span>";
    assert NatToString(50) == "50";
    NoOccurrenceWithoutLead(pre, BubbleClass + "50" + post, BubbleClass);
    assert pre + BubbleClass + "50" + post == pre + (BubbleClass + "50" + post);
    ReviewStarReadsClass(pre, 50, post);
  }

  /** `date_of_stay` and `trip_type`: the text stripped of whitespace, then
      every `marker` removed; absent when the element is missing. */
  function StripLabel(text: Option<string>, marker: string): (r: Option<string>)
    ensures r.Some? <==> text.Some?
  {
    match text
    case None => None
    case Some(t) => Some(Replace(Strip(t), marker, ""))
  }

  function DateOfStay(text: Option<string>): Option<string> {
    StripLabel(text, StayLabel)
  }

  function TripType(text: Option<string>): Option<string> {
    StripLabel(text, TripLabel)
  }

  /** A labelled line, with any whitespace around it, gives back its value. */
  lemma StripLabelReadsValue(w1: string, marker: string, value: string, w2: string)
    requires AllSpace(w1) && AllSpace(w2)
    requires |marker| > 0 && !IsSpace(marker[0])
    requires |value| > 0 && !IsSpace(value[|value| - 1])
    requires !Contains(value, marker)
    ensures StripLabel(Some(w1 + marker + value + w2), marker) == Some(value)
  {
    var x := marker + value;
    assert w1 + marker + value + w2 == w1 + x + w2;
    StripPadded(w1, x, w2);
    assert x[0] == marker[0] && x[|x| - 1] == value[|value| - 1];
    StripTrimmed(x);
    ReplaceLeading(marker, value, "");
    assert "" + value == value;
  }

  lemma DateOfStayReadsValue(w1: string, value: string, w2: string)
    requires AllSpace(w1) && AllSpace(w2)
    requires |value| > 0 && !IsSpace(value[|value| - 1])
    requires !Contains(value, StayLabel)
    ensures DateOfStay(Some(w1 + StayLabel + value + w2)) == Some(value)
  {
    StripLabelReadsValue(w1, StayLabel, value, w2);
  }

  lemma TripTypeReadsValue(w1: string, value: string, w2: string)
    requires AllSpace(w1) && AllSpace(w2)
    requires |value| > 0 && !IsSpace(value[|value| - 1])
    requires !Contains(value, TripLabel)
    ensures TripType(Some(w1 + TripLabel + value + w2)) == Some(value)
  {
    StripLabelReadsValue(w1, TripLabel, value, w2);
  }

  // ---------------------------------------------------------------------------
  // Composite extractors
  // ---------------------------------------------------------------------------

  /** One rating-category element: its text (the category's name) and its
      markup (which carries the bubble class). */
  datatype RatingNode = RatingNode(text: string, markup: string)

  function ScoreKey(name: string): string {
    name + ScoreSuffix
  }

  lemma ScoreKeyInjective(a: string, b: string)
    ensures ScoreKey(a) == ScoreKey(b) <==> a == b
  {
    if ScoreKey(a) == ScoreKey(b) {
      assert a == ScoreKey(a)[..|a|];
      assert b == ScoreKey(b)[..|b|];
    }
  }

  /** `ratings_detail`: `{name + "Score": review_star(node)}` built in
      document order, so a repeated name keeps its first place and its last
      value. Empty, never absent, when there are no category elements. */
  function RatingsDetail(nodes: seq<RatingNode>): (r: seq<(string, OrNaN<int>)>)
    ensures DistinctKeys(r)
    ensures |r| <= |nodes|
    ensures |r| == 0 <==> |nodes| == 0
    decreases |nodes|
  {
    if |nodes| == 0 then []
    else
      var last := nodes[|nodes| - 1];
      Set(RatingsDetail(nodes[..|nodes| - 1]), ScoreKey(last.text), ReviewStar(last.markup))
  }

  /** The keys are exactly the category names with "Score" appended. */
  lemma {:induction false} RatingsDetailKeys(nodes: seq<RatingNode>, key: string)
    ensures Get(RatingsDetail(nodes), key).Some? <==>
            exists i :: 0 <= i < |nodes| && ScoreKey(nodes[i].text) == key
    decreases |nodes|
  {
    if |nodes| > 0 {
      var front := nodes[..|nodes| - 1];
      RatingsDetailKeys(front, key);
      NamedInSnoc(front, nodes, key);
    }
  }

  /** Some node of `nodes`, which is `front` and one more, is named `key`
      exactly when some node of `front` or the last one is. */
  lemma NamedInSnoc(front: seq<RatingNode>, nodes: seq<RatingNode>, key: string)
    requires |nodes| > 0 && front == nodes[..|nodes| - 1]
    ensures (exists i :: 0 <= i < |nodes| && ScoreKey(nodes[i].text) == key) <==>
            (exists i :: 0 <= i < |front| && ScoreKey(front[i].text) == key) || ScoreKey(nodes[|nodes| - 1].text) == key
  {
    if exists i :: 0 <= i < |front| && ScoreKey(front[i].text) == key {
      var i :| 0 <= i < |front| && ScoreKey(front[i].text) == key;
      assert nodes[i] == front[i];
    }
    if exists i :: 0 <= i < |nodes| && ScoreKey(nodes[i].text) == key {
      var i :| 0 <= i < |nodes| && ScoreKey(nodes[i].text) == key;
      if i < |front| {
        assert front[i] == nodes[i];
      }
    }
  }

  /** The keys of the category elements, in document order. */
  function ScoreKeys(nodes: seq<RatingNode>): (r: seq<string>)
    ensures |r| == |nodes| && forall i :: 0 <= i < |nodes| ==> r[i] == ScoreKey(nodes[i].text)
  {
    seq(|nodes|, i requires 0 <= i < |nodes| => ScoreKey(nodes[i].text))
  }

  lemma ScoreKeysSnoc(nodes: seq<RatingNode>)
    requires |nodes| > 0
    ensures ScoreKeys(nodes) == ScoreKeys(nodes[..|nodes| - 1]) + [ScoreKey(nodes[|nodes| - 1].text)]
  {
  }

  /** Some category element is named `key` exactly when `key` is among the keys. */
  lemma NamedInScoreKeys(nodes: seq<RatingNode>, key: string)
    ensures (exists i :: 0 <= i < |nodes| && ScoreKey(nodes[i].text) == key) <==> key in ScoreKeys(nodes)
  {
    if key in ScoreKeys(nodes) {
      var i :| 0 <= i < |nodes| && ScoreKeys(nodes)[i] == key;
    }
  }

  /** The keys come in the order of their first category element: a repeated
      name keeps the place its first element gave it. */
  lemma {:induction false} RatingsDetailOrder(nodes: seq<RatingNode>)
    ensures InFirstOrder(Keys(RatingsDetail(nodes)), ScoreKeys(nodes))
    decreases |nodes|
  {
    if |nodes| > 0 {
      var front := nodes[..|nodes| - 1];
      var last := nodes[|nodes| - 1];
      RatingsDetailOrder(front);
      RatingsDetailKeys(front, ScoreKey(last.text));
      NamedInScoreKeys(front, ScoreKey(last.text));
      SetInFirstOrder(RatingsDetail(front), ScoreKeys(front), ScoreKey(last.text), ReviewStar(last.markup));
      ScoreKeysSnoc(nodes);
    }
  }

  /** Each key holds the star value of the last category element with that name. */
  lemma {:induction false} RatingsDetailLastWins(nodes: seq<RatingNode>, i: int)
    requires 0 <= i < |nodes|
    requires forall j :: i < j < |nodes| ==> nodes[j].text != nodes[i].text
    ensures Get(RatingsDetail(nodes), ScoreKey(nodes[i].text)) == Some(ReviewStar(nodes[i].markup))
    decreases |nodes|
  {
    if i < |nodes| - 1 {
      var front := nodes[..|nodes| - 1];
      var last := nodes[|nodes| - 1];
      ScoreKeyInjective(last.text, nodes[i].text);
      assert front[i] == nodes[i];
      RatingsDetailLastWins(front, i);
    }
  }

  /** Distinct category names give one entry per category element. */
  lemma {:induction false} RatingsDetailDistinctNames(nodes: seq<RatingNode>)
    requires forall i, j :: 0 <= i < j < |nodes| ==> nodes[i].text != nodes[j].text
    ensures |RatingsDetail(nodes)| == |nodes|
    decreases |nodes|
  {
    if |nodes| > 0 {
      var front := nodes[..|nodes| - 1];
      var last := nodes[|nodes| - 1];
      RatingsDetailDistinctNames(front);
      RatingsDetailKeys(front, ScoreKey(last.text));
      forall i | 0 <= i < |front| ensures ScoreKey(front[i].text) != ScoreKey(last.text) {
        assert front[i] == nodes[i];
        ScoreKeyInjective(front[i].text, last.text);
      }
    }
  }

  /** The hotel's response: responder name, response date, response text. */
  datatype Response = Response(responderName: Option<string>, responseDate: Option<string>, responseText: Option<string>)

  /** `response_details`: all three parts, or none of them. */
  function ResponseDetails(name: Option<string>, date: Option<string>, text: Option<string>): (r: Response)
    ensures r.responderName.Some? == r.responseDate.Some? && r.responseDate.Some? == r.responseText.Some?
    ensures r.responderName.Some? <==> name.Some? && date.Some? && text.Some?
    ensures r.responderName.Some? ==> r == Response(name, date, text)
  {
    if name.Some? && date.Some? && text.Some? then Response(name, date, text)
    else Response(None, None, None)
  }
}

=== FILE: pagination.dfy ===
/** The review-page resolver (`review_pages`): from the page-number links of
    a hotel's review page, the URLs of its review pages, including the ones
    the page-number control skips over. */
module Pagination {
  import opened Wrappers
  import opened PyStr
  import opened Scans

  /** Reviews per page: the step between the offsets of consecutive pages. */
  const PageStride := 5

  /** The offset parameter of a review-page URL; its digits follow it. */
  const OffsetToken := "Reviews-or"

  /** One `<a class="pageNum">` anchor: its `href` attribute (absent when the
      anchor has none) and its text. */
  datatype Anchor = Anchor(href: Option<string>, text: string)

  /** A known page link with its page number. */
  datatype PageLink = PageLink(url: string, pageNum: int)

  /** Every anchor has an `href` and a text that `int()` accepts. */
  predicate AllParse(anchors: seq<Anchor>) {
    forall i :: 0 <= i < |anchors| ==> anchors[i].href.Some? && ParseInt(anchors[i].text).Some?
  }

  /** The loop that builds one `{hyperlink, pageNum}` row per anchor: absent
      as soon as one anchor has no `href` or a text that is not an integer. */
  function CollectLinks(anchors: seq<Anchor>): (r: Option<seq<PageLink>>)
    ensures r.Some? <==> AllParse(anchors)
    ensures r.Some? ==> |r.value| == |anchors|
    ensures r.Some? ==> forall i :: 0 <= i < |anchors| ==>
              r.value[i] == PageLink(anchors[i].href.value, ParseInt(anchors[i].text).value)
    decreases |anchors|
  {
    if |anchors| == 0 then Some([])
    else
      var a := anchors[0];
      if a.href.None? || ParseInt(a.text).None? then None
      else
        match CollectLinks(anchors[1..])
        case None => None
        case Some(rest) => Some([PageLink(a.href.value, ParseInt(a.text).value)] + rest)
  }

  /** `range(start, stop, 5)`. */
  function StrideRange(start: int, stop: int): (r: seq<int>)
    ensures |r| == if start < stop then (stop - start + PageStride - 1) / PageStride else 0
    ensures forall j :: 0 <= j < |r| ==> r[j] == start + PageStride * j
    decreases stop - start
  {
    if start < stop then [start] + StrideRange(start + PageStride, stop) else []
  }

  /** `re.sub(r"Reviews\-or\d+", f"Reviews-or{offset}", template)`: the URL of
      the review page that starts at review number `offset`. */
  function OffsetLink(template: string, offset: int): string {
    SubNumbered(template, OffsetToken, OffsetToken + IntToString(offset))
  }

  /** One URL per offset of `range(start, stop, 5)`, made from `template`. */
  function MissingLinks(template: string, start: int, stop: int): seq<string> {
    var offsets := StrideRange(start, stop);
    seq(|offsets|, j requires 0 <= j < |offsets| => OffsetLink(template, offsets[j]))
  }

  /** The part of `review_pages` after the loop: the hrefs of the rows, and
      the missing pages' URLs when the last two page numbers leave a gap. */
  function ResolvePages(links: seq<PageLink>): (r: Option<seq<string>>)
    ensures r.None? <==> |links| == 0
    ensures r.Some? ==> |links| <= |r.value|
    ensures r.Some? ==> forall i :: 0 <= i < |links| ==> r.value[i] == links[i].url
  {
    if |links| == 0 then None
    else
      var urls := seq(|links|, i requires 0 <= i < |links| => links[i].url);
      var last := links[|links| - 1].pageNum;
      if |links| > 1 && last - links[|links| - 2].pageNum > 1 then
        var prev := links[|links| - 2].pageNum;
        Some(urls + MissingLinks(links[0].url, prev * PageStride, (last - 1) * PageStride))
      else
        Some(urls)
  }

  /** `review_pages`. Absent when there is no anchor or one of them cannot be
      read; otherwise the known hrefs in document order, followed by one
      synthesised URL per page missing between the last two page numbers. */
  function ReviewPages(anchors: seq<Anchor>): (r: Option<seq<string>>)
    ensures r.None? <==> |anchors| == 0 || !AllParse(anchors)
    ensures r.Some? ==> |anchors| <= |r.value|
    ensures r.Some? ==> forall i :: 0 <= i < |anchors| ==> r.value[i] == anchors[i].href.value
  {
    match CollectLinks(anchors)
    case None => None
    case Some(links) => ResolvePages(links)
  }

  /** An anchor text holding an information separator (U+001C to U+001F) is
      not a page number to `int()`, though `strip()` would skip it, so the
      resolver gives up on the whole page. */
  lemma ReviewPagesRejectsSeparator(anchors: seq<Anchor>, i: int, k: int)
    requires 0 <= i < |anchors| && 0 <= k < |anchors[i].text|
    requires IsInfoSeparator(anchors[i].text[k])
    ensures ReviewPages(anchors) == None
  {
  }

  /** Rows carrying exactly these hrefs and page numbers. */
  predicate Rows(links: seq<PageLink>, hrefs: seq<string>, nums: seq<int>) {
    && |links| == |hrefs| == |nums|
    && forall i :: 0 <= i < |links| ==> links[i] == PageLink(hrefs[i], nums[i])
  }

  /** The anchors carry exactly these hrefs and page numbers. */
  predicate Reads(anchors: seq<Anchor>, hrefs: seq<string>, nums: seq<int>) {
    && |anchors| == |hrefs| == |nums|
    && forall i :: 0 <= i < |anchors| ==>
         anchors[i].href == Some(hrefs[i]) && ParseInt(anchors[i].text) == Some(nums[i])
  }

  /** One link, or last two page numbers adjacent, equal or decreasing (the
      numbers are taken in document order, never sorted): the hrefs come back
      unchanged and in document order. */
  lemma ReviewPagesVerbatim(anchors: seq<Anchor>, hrefs: seq<string>, nums: seq<int>)
    requires Reads(anchors, hrefs, nums) && |anchors| > 0
    requires |nums| < 2 || nums[|nums| - 1] - nums[|nums| - 2] <= 1
    ensures ReviewPages(anchors) == Some(hrefs)
  {
    var links := ReadLinks(anchors, hrefs, nums);
    ResolveVerbatim(links, hrefs, nums);
  }

  /** The rows read from anchors that carry `hrefs` and `nums`. */
  lemma ReadLinks(anchors: seq<Anchor>, hrefs: seq<string>, nums: seq<int>) returns (links: seq<PageLink>)
    requires Reads(anchors, hrefs, nums)
    ensures CollectLinks(anchors) == Some(links) && Rows(links, hrefs, nums)
  {
    links := CollectLinks(anchors).value;
  }

  /** A gap between the last two page numbers: the known hrefs in document
      order, then exactly one URL per missing page, the j-th made from the
      first href with the offset of page `prev + j`, 5 reviews per page. */
  lemma ReviewPagesGapFill(anchors: seq<Anchor>, hrefs: seq<string>, nums: seq<int>)
    requires Reads(anchors, hrefs, nums) && |anchors| >= 2
    requires nums[|nums| - 1] - nums[|nums| - 2] > 1
    ensures ReviewPages(anchors).Some?
    ensures var r := ReviewPages(anchors).value;
            var prev := nums[|nums| - 2];
            var gap := nums[|nums| - 1] - prev - 1;
            && |r| == |hrefs| + gap
            && r[..|hrefs|] == hrefs
            && forall j :: 0 <= j < gap ==>
                 r[|hrefs| + j] == OffsetLink(hrefs[0], prev * PageStride + PageStride * j)
  {
    var prev := nums[|nums| - 2];
    var last := nums[|nums| - 1];
    ReviewPagesShape(anchors, hrefs, nums);
    GapShape(hrefs, prev, last);
  }

  /** Before any arithmetic on the result: the hrefs followed by the missing links. */
  lemma ReviewPagesShape(anchors: seq<Anchor>, hrefs: seq<string>, nums: seq<int>)
    requires Reads(anchors, hrefs, nums) && |anchors| >= 2
    requires nums[|nums| - 1] - nums[|nums| - 2] > 1
    ensures ReviewPages(anchors) ==
            Some(hrefs + MissingLinks(hrefs[0], nums[|nums| - 2] * PageStride, (nums[|nums| - 1] - 1) * PageStride))
  {
    var links := ReadLinks(anchors, hrefs, nums);
    ResolveGap(links, hrefs, nums);
  }

  lemma ResolveVerbatim(links: seq<PageLink>, hrefs: seq<string>, nums: seq<int>)
    requires Rows(links, hrefs, nums) && |links| > 0
    requires |nums| < 2 || nums[|nums| - 1] - nums[|nums| - 2] <= 1
    ensures ResolvePages(links) == Some(hrefs)
  {
    var urls := seq(|links|, i requires 0 <= i < |links| => links[i].url);
    assert urls == hrefs;
  }

  lemma ResolveGap(links: seq<PageLink>, hrefs: seq<string>, nums: seq<int>)
    requires Rows(links, hrefs, nums) && |links| >= 2
    requires nums[|nums| - 1] - nums[|nums| - 2] > 1
    ensures ResolvePages(links) ==
            Some(hrefs + MissingLinks(hrefs[0], nums[|nums| - 2] * PageStride, (nums[|nums| - 1] - 1) * PageStride))
  {
    var urls := seq(|links|, i requires 0 <= i < |links| => links[i].url);
    assert urls == hrefs;
  }

  /** The hrefs followed by the missing links, element by element. */
  lemma GapShape(hrefs: seq<string>, prev: int, last: int)
    requires |hrefs| > 0 && last - prev > 1
    ensures var r := hrefs + MissingLinks(hrefs[0], prev * PageStride, (last - 1) * PageStride);
            var gap := last - prev - 1;
            && |r| == |hrefs| + gap
            && r[..|hrefs|] == hrefs
            && forall j :: 0 <= j < gap ==>
                 r[|hrefs| + j] == OffsetLink(hrefs[0], prev * PageStride + PageStride * j)
  {
    MissingOffsets(prev, last);
    var missing := MissingLinks(hrefs[0], prev * PageStride, (last - 1) * PageStride);
    assert (hrefs + missing)[..|hrefs|] == hrefs;
    assert forall j :: 0 <= j < |missing| ==> (hrefs + missing)[|hrefs| + j] == missing[j];
  }

  /** The synthesised offsets: one per missing page, strictly increasing
      multiples of 5, from the second-to-last page's offset up to and not
      including the offset of the page before the last. */
  lemma MissingOffsets(prev: int, last: int)
    requires last - prev > 1
    ensures var offsets := StrideRange(prev * PageStride, (last - 1) * PageStride);
            && |offsets| == last - prev - 1
            && (forall j :: 0 <= j < |offsets| ==>
                  offsets[j] % PageStride == 0 && prev * PageStride <= offsets[j] < (last - 1) * PageStride)
            && (forall i, j :: 0 <= i < j < |offsets| ==> offsets[i] < offsets[j])
  {
    var start := prev * PageStride;
    var stop := (last - 1) * PageStride;
    assert stop - start == PageStride * (last - prev - 1);
    assert (stop - start + PageStride - 1) / PageStride == last - prev - 1;
  }

  /** A first href without an offset parameter is copied unchanged into every
      synthesised URL. */
  lemma OffsetLinkWithoutToken(template: string, offset: int)
    requires forall i :: !NumberedAt(template, OffsetToken, i)
    ensures OffsetLink(template, offset) == template
  {
    SubNumberedAbsent(template, OffsetToken, OffsetToken + IntToString(offset));
  }

  /** A first href with one offset parameter: a synthesised URL differs from
      it only in the offset's digits. */
  lemma OffsetLinkRewritesOffset(pre: string, digits: string, post: string, offset: int)
    requires forall i :: 0 <= i < |pre| ==> !NumberedAt(pre + OffsetToken + digits + post, OffsetToken, i)
    requires |digits| > 0 && forall i :: 0 <= i < |digits| ==> IsDigit(digits[i])
    requires post == [] || !IsDigit(post[0])
    requires forall i :: !NumberedAt(post, OffsetToken, i)
    ensures OffsetLink(pre + OffsetToken + digits + post, offset) == pre + OffsetToken + IntToString(offset) + post
  {
    SubNumberedSingle(pre, OffsetToken, digits, post, OffsetToken + IntToString(offset));
    assert pre + (OffsetToken + IntToString(offset)) + post == pre + OffsetToken + IntToString(offset) + post;
  }
}

=== FILE: pystr.dfy ===
/** The Python `str` and `int` behaviour the scraper relies on:
    `str.isspace`, `str.strip()`, `str.replace`, `int(text)` and `str(n)`. */
module PyStr {
  import opened Wrappers

  /** `c.isspace()`: the characters `str.strip()` skips. */
  predicate IsSpace(c: char) {
    || c == ' '
    || ('\t' <= c <= '\r')
    || ('\U{1C}' <= c <= '\U{1F}')
    || c == '\U{85}' || c == '\U{A0}' || c == '\U{1680}'
    || ('\U{2000}' <= c <= '\U{200A}')
    || c == '\U{2028}' || c == '\U{2029}' || c == '\U{202F}'
    || c == '\U{205F}' || c == '\U{3000}'
  }

  predicate AllSpace(w: string) {
    forall i :: 0 <= i < |w| ==> IsSpace(w[i])
  }

  /** The ASCII information separators U+001C to U+001F: `isspace` holds of
      them, but `int()` copies ASCII characters through unchanged and then
      skips only the C-locale blanks, so it rejects them. */
  predicate IsInfoSeparator(c: char) {
    '\U{1C}' <= c <= '\U{1F}'
  }

  /** The characters `int()` skips around the number. */
  predicate IntSpace(c: char) {
    IsSpace(c) && !IsInfoSeparator(c)
  }

  predicate AllIntSpace(w: string) {
    forall i :: 0 <= i < |w| ==> IntSpace(w[i])
  }

  predicate HasInfoSeparator(s: string) {
    exists i :: 0 <= i < |s| && IsInfoSeparator(s[i])
  }

  /** An ASCII decimal digit. */
  predicate IsDigit(c: char) {
    '0' <= c <= '9'
  }

  // ---------------------------------------------------------------------------
  // str.strip()
  // ---------------------------------------------------------------------------

  /** `s.strip()`: leading, then trailing whitespace removed. */
  function Strip(s: string): (r: string)
    ensures |r| <= |s|
    ensures r == [] || (!IsSpace(r[0]) && !IsSpace(r[|r| - 1]))
    decreases |s|
  {
    if |s| > 0 && IsSpace(s[0]) then Strip(s[1..])
    else if |s| > 0 && IsSpace(s[|s| - 1]) then Strip(s[..|s| - 1])
    else s
  }

  lemma {:induction false} StripLeading(w: string, t: string)
    requires AllSpace(w)
    ensures Strip(w + t) == Strip(t)
    decreases |w|
  {
    if |w| == 0 {
      assert w + t == t;
    } else {
      assert (w + t)[1..] == w[1..] + t;
      StripLeading(w[1..], t);
    }
  }

  lemma {:induction false} StripTrailing(t: string, w: string)
    requires AllSpace(w)
    ensures Strip(t + w) == Strip(t)
    decreases |t| + |w|
  {
    if |w| == 0 {
      assert t + w == t;
    } else if |t| == 0 {
      assert t + w == w + [];
      StripLeading(w, []);
    } else if IsSpace(t[0]) {
      assert (t + w)[1..] == t[1..] + w;
      StripTrailing(t[1..], w);
    } else {
      assert (t + w)[0] == t[0];
      assert (t + w)[..|t + w| - 1] == t + w[..|w| - 1];
      StripTrailing(t, w[..|w| - 1]);
    }
  }

  /** Whitespace around a text does not change what `strip` leaves of it. */
  lemma StripPadded(w1: string, x: string, w2: string)
    requires AllSpace(w1) && AllSpace(w2)
    ensures Strip(w1 + x + w2) == Strip(x)
  {
    assert w1 + x + w2 == w1 + (x + w2);
    StripLeading(w1, x + w2);
    StripTrailing(x, w2);
  }

  /** A text with no whitespace at either end is its own `strip`. */
  lemma StripTrimmed(x: string)
    requires x == [] || (!IsSpace(x[0]) && !IsSpace(x[|x| - 1]))
    ensures Strip(x) == x
  {
  }

  /** `strip` removes nothing but whitespace. */
  lemma {:induction false} StripKeeps(s: string, i: int)
    requires 0 <= i < |s| && !IsSpace(s[i])
    ensures s[i] in Strip(s)
    decreases |s|
  {
    if IsSpace(s[0]) {
      assert s[1..][i - 1] == s[i];
      StripKeeps(s[1..], i - 1);
    } else if IsSpace(s[|s| - 1]) {
      assert s[..|s| - 1][i] == s[i];
      StripKeeps(s[..|s| - 1], i);
    }
  }

  // ---------------------------------------------------------------------------
  // Occurrences and str.replace
  // ---------------------------------------------------------------------------

  /** `t` occurs in `s` starting at index `i`. */
  predicate OccursAt(s: string, t: string, i: int) {
    0 <= i && i + |t| <= |s| && s[i..i + |t|] == t
  }

  /** `t in s` for strings. */
  predicate Contains(s: string, t: string) {
    exists i :: 0 <= i <= |s| && OccursAt(s, t, i)
  }

  lemma OccursAtShift(s: string, t: string, i: int)
    requires |s| > 0 && 0 <= i
    ensures OccursAt(s[1..], t, i) <==> OccursAt(s, t, i + 1)
  {
    if i + |t| <= |s| - 1 {
      assert s[1..][i..i + |t|] == s[i + 1..i + 1 + |t|];
    }
  }

  /** No occurrence of `t` can start at a character other than `t[0]`. */
  lemma NoOccurrenceWithoutLead(pre: string, rest: string, t: string)
    requires |t| > 0
    requires forall i :: 0 <= i < |pre| ==> pre[i] != t[0]
    ensures forall i :: 0 <= i < |pre| ==> !OccursAt(pre + rest, t, i)
  {
    forall i | 0 <= i < |pre| ensures !OccursAt(pre + rest, t, i) {
      assert (pre + rest)[i] == pre[i];
    }
  }

  /** `s.replace(target, repl)`: every non-overlapping occurrence of `target`,
      found scanning left to right, becomes `repl`. An empty `target` puts
      `repl` before every character and at the end, as Python does. */
  function Replace(s: string, target: string, repl: string): string {
    if |target| == 0 then Interleave(s, repl) else ReplaceScan(s, target, repl)
  }

  /** `s.replace("", repl)`. */
  function Interleave(s: string, repl: string): string
    decreases |s|
  {
    if |s| == 0 then repl else repl + [s[0]] + Interleave(s[1..], repl)
  }

  /** The left-to-right scan of `s.replace(target, repl)` for a nonempty `target`. */
  function ReplaceScan(s: string, target: string, repl: string): string
    requires |target| > 0
    decreases |s|
  {
    if |s| == 0 then []
    else if OccursAt(s, target, 0) then repl + ReplaceScan(s[|target|..], target, repl)
    else [s[0]] + ReplaceScan(s[1..], target, repl)
  }

  /** Dropping the first character of a prefix without occurrences leaves
      a prefix without occurrences. */
  lemma NoOccurrenceInTail(pre: string, rest: string, t: string)
    requires |pre| > 0
    requires forall i :: 0 <= i < |pre| ==> !OccursAt(pre + rest, t, i)
    ensures forall i :: 0 <= i < |pre| - 1 ==> !OccursAt(pre[1..] + rest, t, i)
  {
    var s := pre + rest;
    assert s[1..] == pre[1..] + rest;
    forall i | 0 <= i < |pre| - 1 ensures !OccursAt(pre[1..] + rest, t, i) {
      OccursAtShift(s, t, i);
    }
  }

  /** Characters no occurrence starts at are copied through unchanged. */
  lemma {:induction false} ReplaceCopiesPrefix(pre: string, rest: string, target: string, repl: string)
    requires |target| > 0
    requires forall i :: 0 <= i < |pre| ==> !OccursAt(pre + rest, target, i)
    ensures Replace(pre + rest, target, repl) == pre + Replace(rest, target, repl)
    decreases |pre|
  {
    if |pre| == 0 {
      assert pre + rest == rest;
    } else {
      var s := pre + rest;
      assert !OccursAt(s, target, 0);
      assert s[1..] == pre[1..] + rest;
      NoOccurrenceInTail(pre, rest, target);
      assert ReplaceScan(s, target, repl) == [s[0]] + ReplaceScan(s[1..], target, repl);
      ReplaceCopiesPrefix(pre[1..], rest, target, repl);
      assert [s[0]] + (pre[1..] + Replace(rest, target, repl)) == ([pre[0]] + pre[1..]) + Replace(rest, target, repl);
      assert [pre[0]] + pre[1..] == pre;
    }
  }

  /** A text without `target` is left as it is. */
  lemma ReplaceAbsent(s: string, target: string, repl: string)
    requires |target| > 0 && !Contains(s, target)
    ensures Replace(s, target, repl) == s
  {
    assert s + [] == s;
    ReplaceCopiesPrefix(s, [], target, repl);
  }

  /** A leading `target` is replaced, and a remainder without `target` is kept. */
  lemma ReplaceLeading(target: string, v: string, repl: string)
    requires |target| > 0 && !Contains(v, target)
    ensures Replace(target + v, target, repl) == repl + v
  {
    var s := target + v;
    assert s[0..|target|] == target;
    assert s[|target|..] == v;
    ReplaceAbsent(v, target, repl);
  }

  // ---------------------------------------------------------------------------
  // int(text) and str(n)
  // ---------------------------------------------------------------------------

  function DigitValue(c: char): nat
    requires IsDigit(c)
  {
    c as int - '0' as int
  }

  function DigitChar(d: nat): char
    requires d < 10
  {
    ('0' as int + d) as char
  }

  predicate DigitsOrUnderscores(s: string) {
    forall i :: 0 <= i < |s| ==> IsDigit(s[i]) || s[i] == '_'
  }

  /** The number a run of digits spells, ignoring digit-group underscores. */
  function DigitsValue(s: string): nat
    requires DigitsOrUnderscores(s)
    decreases |s|
  {
    if |s| == 0 then 0
    else if s[|s| - 1] == '_' then DigitsValue(s[..|s| - 1])
    else DigitsValue(s[..|s| - 1]) * 10 + DigitValue(s[|s| - 1])
  }

  /** What `int()` accepts after the sign: ASCII digits, with single
      underscores allowed between two digits. */
  predicate ValidDigits(s: string) {
    && |s| > 0
    && DigitsOrUnderscores(s)
    && IsDigit(s[0]) && IsDigit(s[|s| - 1])
    && (forall i :: 0 < i < |s| && s[i] == '_' ==> s[i - 1] != '_')
  }

  /** The characters a valid `int()` argument is made of. */
  predicate IntChar(c: char) {
    IntSpace(c) || IsDigit(c) || c in "_+-"
  }

  /** `int(s)` for a `str` argument: absent where Python raises `ValueError`.
      An information separator anywhere fails; otherwise whitespace around
      the number is skipped, as `strip` skips it. */
  function ParseInt(s: string): (r: Option<int>)
    ensures r.Some? ==> forall i :: 0 <= i < |s| ==> IntChar(s[i])
  {
    if HasInfoSeparator(s) then None
    else
      var t := Strip(s);
      StripKeepsAll(s);
      if |t| > 0 && t[0] == '-' then
        (if ValidDigits(t[1..]) then SignedBody(t); var v: int := DigitsValue(t[1..]); Some(-v) else None)
      else if |t| > 0 && t[0] == '+' then
        (if ValidDigits(t[1..]) then SignedBody(t); Some(DigitsValue(t[1..])) else None)
      else if ValidDigits(t) then Some(DigitsValue(t))
      else None
  }

  /** Every non-whitespace character of `s` survives `strip`. */
  lemma StripKeepsAll(s: string)
    ensures forall i :: 0 <= i < |s| && !IsSpace(s[i]) ==> s[i] in Strip(s)
  {
    forall i | 0 <= i < |s| && !IsSpace(s[i]) ensures s[i] in Strip(s) {
      StripKeeps(s, i);
    }
  }

  /** A sign followed by valid digits holds only signs, digits and underscores. */
  lemma SignedBody(t: string)
    requires |t| > 0 && t[0] in "+-" && ValidDigits(t[1..])
    ensures forall k :: 0 <= k < |t| ==> IsDigit(t[k]) || t[k] in "_+-"
  {
    forall k | 1 <= k < |t| ensures IsDigit(t[k]) || t[k] == '_' {
      assert t[k] == t[1..][k - 1];
    }
  }

  /** `str(n)` for a natural number: its decimal digits without leading zeros. */
  function NatToString(n: nat): (r: string)
    ensures |r| > 0 && forall i :: 0 <= i < |r| ==> IsDigit(r[i])
    ensures DigitsValue(r) == n
    ensures r[0] == '0' ==> r == "0"
    decreases n
  {
    if n < 10 then [DigitChar(n)]
    else
      var front := NatToString(n / 10);
      assert (front + [DigitChar(n % 10)])[..|front|] == front;
      front + [DigitChar(n % 10)]
  }

  /** `str(n)`. */
  function IntToString(n: int): (r: string)
    ensures |r| > 0 && forall i :: 0 <= i < |r| ==> IsDigit(r[i]) || r[i] == '-'
  {
    if n < 0 then "-" + NatToString(-n) else NatToString(n)
  }

  lemma DigitNotSpace(c: char)
    requires IsDigit(c) || c == '-'
    ensures !IsSpace(c)
  {
  }

  lemma NatToStringValid(n: nat)
    ensures ValidDigits(NatToString(n))
  {
    var d := NatToString(n);
    assert forall i :: 0 <= i < |d| ==> d[i] != '_';
  }

  /** `int(str(n)) == n`. */
  lemma ParseIntToString(n: int)
    ensures ParseInt(IntToString(n)) == Some(n)
  {
    var s := IntToString(n);
    DigitNotSpace(s[0]);
    DigitNotSpace(s[|s| - 1]);
    StripTrimmed(s);
    if n < 0 {
      var d := NatToString(-n);
      assert s == "-" + d && s[0] == '-';
      assert s[1..] == d;
      NatToStringValid(-n);
    } else {
      NatToStringValid(n);
      assert s[0] != '-' && s[0] != '+';
    }
  }

  /** `int()` ignores whitespace on either side, information separators aside. */
  lemma ParseIntPadding(w1: string, x: string, w2: string)
    requires AllIntSpace(w1) && AllIntSpace(w2)
    ensures ParseInt(w1 + x + w2) == ParseInt(x)
  {
    var s := w1 + x + w2;
    if HasInfoSeparator(s) {
      var i :| 0 <= i < |s| && IsInfoSeparator(s[i]);
      assert |w1| <= i < |w1| + |x|;
      assert x[i - |w1|] == s[i];
    } else {
      forall i | 0 <= i < |x| ensures !IsInfoSeparator(x[i]) {
        assert s[|w1| + i] == x[i];
      }
      StripPadded(w1, x, w2);
    }
  }

  /** An information separator anywhere makes `int()` fail, even where
      `strip` would have skipped it. */
  lemma ParseIntRejectsSeparator(w: string, x: string)
    requires |w| > 0 && IsInfoSeparator(w[0])
    ensures ParseInt(w + x) == None
    ensures Strip(w + x) == Strip(w[1..] + x)
  {
    assert (w + x)[0] == w[0];
    assert (w + x)[1..] == w[1..] + x;
  }
}

=== FILE: record.dfy ===
/** Record assembly: one review record per review box of a page, the dict
    layout the record stream receives for it, and the crawl loop that
    concatenates the records of every page in order. */
module Record {
  import opened Wrappers
  import opened Dict
  import opened Extractors
  import opened Stream

  /** What the parser finds in one review box. */
  datatype ReviewBox = ReviewBox(
    reviewerText: Option<string>,      // text of the reviewer's header link
    reviewerHref: Option<string>,      // `href` of that link
    reviewIdAttr: Option<string>,      // `data-reviewid` attribute
    dateText: Option<string>,          // text of the "... wrote a review ..." line
    locationText: Option<string>,      // text of the reviewer's location
    contributionText: Option<string>,  // parent text of the first `contributions?` match
    helpfulText: Option<string>,       // parent text of the first `helpful votes?` match
    markup: string,                    // the box as HTML, `str(box)`
    reviewText: Option<string>,        // text of the review body
    stayText: Option<string>,          // text of the "Date of stay" line
    tripText: Option<string>,          // text of the "Trip type" line
    ratingNodes: seq<RatingNode>,      // rating-category elements, in document order
    responderText: Option<string>,     // text of the responder's name
    responseDateAttr: Option<string>,  // `title` attribute of the response date
    responseBodyText: Option<string>)  // text of the response

  /** What the parser finds on one review page. */
  datatype ParsedPage = ParsedPage(
    headingText: Option<string>,       // hotel name heading
    addressText: Option<string>,       // hotel address
    reviewCountText: Option<string>,   // "<n> reviews"
    boxes: seq<ReviewBox>)             // review boxes, in document order

  /** One line of the record stream. */
  datatype ReviewRecord = ReviewRecord(
    link: string,
    hotelName: Option<string>,
    hotelAddress: Option<string>,
    countReviews: Option<int>,
    reviewerName: string,
    reviewerProfile: string,
    reviewId: OrNaN<string>,
    reviewDate: string,
    reviewerLocation: string,
    reviewerContribution: OrNaN<int>,
    reviewHelpfulVotes: OrNaN<int>,
    reviewStar: OrNaN<int>,
    reviewText: Option<string>,
    dateOfStay: Option<string>,
    tripType: Option<string>,
    ratingsDetail: seq<(string, OrNaN<int>)>,
    responseDetails: Response)

  /** The record of one box: every extractor run once, the page-level ones
      on the enclosing page. A missing element gives its field's absent
      marker, a plain lookup gives the found text, the ratings have one
      entry per key, and the response is whole or empty. */
  function BuildRecord(link: string, page: ParsedPage, box: ReviewBox): (r: ReviewRecord)
    ensures r.link == link
    ensures r.countReviews == CountReviews(page.reviewCountText)
    ensures r.reviewDate == ReviewDate(box.reviewerText, box.dateText)
    ensures r.reviewerContribution == ReviewerContribution(box.contributionText)
    ensures r.reviewHelpfulVotes == ReviewHelpfulVotes(box.helpfulText)
    ensures r.reviewStar == ReviewStar(box.markup)
    ensures r.dateOfStay == DateOfStay(box.stayText) && r.tripType == TripType(box.tripText)
    ensures r.ratingsDetail == RatingsDetail(box.ratingNodes)
    ensures r.responseDetails == ResponseDetails(box.responderText, box.responseDateAttr, box.responseBodyText)
    ensures r.hotelName == page.headingText && r.hotelAddress == page.addressText
    ensures r.reviewText == box.reviewText
    ensures r.reviewerName == (if box.reviewerText.Some? then box.reviewerText.value else "")
    ensures r.reviewerProfile == (if box.reviewerHref.Some? then box.reviewerHref.value else "")
    ensures r.reviewerLocation == (if box.locationText.Some? then box.locationText.value else "")
    ensures r.reviewId == (if box.reviewIdAttr.Some? then Val(box.reviewIdAttr.value) else NaN)
    ensures page.reviewCountText.None? ==> r.countReviews.None?
    ensures box.dateText.None? ==> r.reviewDate == ""
    ensures box.contributionText.None? ==> r.reviewerContribution.NaN?
    ensures box.helpfulText.None? ==> r.reviewHelpfulVotes.NaN?
    ensures r.dateOfStay.Some? <==> box.stayText.Some?
    ensures r.tripType.Some? <==> box.tripText.Some?
    ensures DistinctKeys(r.ratingsDetail) && (|r.ratingsDetail| == 0 <==> |box.ratingNodes| == 0)
    ensures r.responseDetails.responderName.Some? <==>
              box.responderText.Some? && box.responseDateAttr.Some? && box.responseBodyText.Some?
    ensures r.responseDetails.responderName.Some? == r.responseDetails.responseText.Some?
  {
    ReviewRecord(
      link := link,
      hotelName := page.headingText,
      hotelAddress := page.addressText,
      countReviews := CountReviews(page.reviewCountText),
      reviewerName := ReviewerName(box.reviewerText),
      reviewerProfile := ReviewerProfile(box.reviewerHref),
      reviewId := ReviewId(box.reviewIdAttr),
      reviewDate := ReviewDate(box.reviewerText, box.dateText),
      reviewerLocation := ReviewerLocation(box.locationText),
      reviewerContribution := ReviewerContribution(box.contributionText),
      reviewHelpfulVotes := ReviewHelpfulVotes(box.helpfulText),
      reviewStar := ReviewStar(box.markup),
      reviewText := box.reviewText,
      dateOfStay := DateOfStay(box.stayText),
      tripType := TripType(box.tripText),
      ratingsDetail := RatingsDetail(box.ratingNodes),
      responseDetails := ResponseDetails(box.responderText, box.responseDateAttr, box.responseBodyText))
  }

  /** The inner loop over the review boxes of one page. */
  function PageRecords(link: string, page: ParsedPage): (r: seq<ReviewRecord>)
    ensures |r| == |page.boxes|
    ensures forall i :: 0 <= i < |r| ==> r[i] == BuildRecord(link, page, page.boxes[i])
    ensures forall i :: 0 <= i < |r| ==>
              && r[i].link == link
              && r[i].hotelName == page.headingText
              && r[i].hotelAddress == page.addressText
              && r[i].countReviews == CountReviews(page.reviewCountText)
  {
    seq(|page.boxes|, i requires 0 <= i < |page.boxes| => BuildRecord(link, page, page.boxes[i]))
  }

  /** Number of review boxes over a list of pages. */
  function TotalBoxes(items: seq<(string, ParsedPage)>): nat
    decreases |items|
  {
    if |items| == 0 then 0 else |items[0].1.boxes| + TotalBoxes(items[1..])
  }

  /** The records of one `(link, page)` item of the crawl. */
  function ItemRecords(item: (string, ParsedPage)): seq<ReviewRecord> {
    PageRecords(item.0, item.1)
  }

  /** The crawl loop: for each `(link, page)` in order, the records of its
      boxes, appended to the stream. */
  function ExtractAll(items: seq<(string, ParsedPage)>): (r: seq<ReviewRecord>)
    ensures |r| == TotalBoxes(items)
  {
    RecordCount(items);
    FlatMap(items, ItemRecords)
  }

  lemma {:induction false} RecordCount(items: seq<(string, ParsedPage)>)
    ensures |FlatMap(items, ItemRecords)| == TotalBoxes(items)
    decreases |items|
  {
    if |items| > 0 {
      RecordCount(items[1..]);
    }
  }

  /** The records of the i-th page form one block of the stream, right after
      the records of every earlier page. */
  lemma ExtractAllBlock(items: seq<(string, ParsedPage)>, i: int)
    requires 0 <= i < |items|
    ensures var start := |ExtractAll(items[..i])|;
            && start + |items[i].1.boxes| <= |ExtractAll(items)|
            && ExtractAll(items)[start..start + |items[i].1.boxes|] == PageRecords(items[i].0, items[i].1)
  {
    FlatMapBlock(items, ItemRecords, i);
  }

  /** Every record of the stream carries the link of the page it came from. */
  lemma ExtractAllLinks(items: seq<(string, ParsedPage)>, i: int, k: int)
    requires 0 <= i < |items| && 0 <= k < |items[i].1.boxes|
    ensures var start := |ExtractAll(items[..i])|;
            start + k < |ExtractAll(items)| && ExtractAll(items)[start + k].link == items[i].0
  {
    ExtractAllBlock(items, i);
    var start := |ExtractAll(items[..i])|;
    var block := ExtractAll(items)[start..start + |items[i].1.boxes|];
    assert block[k] == ExtractAll(items)[start + k];
  }

  /** Processing two batches one after the other appends their records. */
  lemma ExtractAllAppend(a: seq<(string, ParsedPage)>, b: seq<(string, ParsedPage)>)
    ensures ExtractAll(a + b) == ExtractAll(a) + ExtractAll(b)
  {
    FlatMapAppend(a, b, ItemRecords);
  }

  // ---------------------------------------------------------------------------
  // The dict written for each record
  // ---------------------------------------------------------------------------

  /** The JSON values a record is made of: `None` is `null`, `np.nan` is `NaN`. */
  datatype Json = JNull | JNaN | JInt(i: int) | JStr(s: string) | JObject(members: seq<(string, Json)>)

  /** The keys of the record dict, in the order the source writes them. */
  const FieldNames: seq<string> := [
    "link", "HotelName", "HotelAddress", "CountReviews", "ReviewerName",
    "ReviewerProfile", "ReviewID", "ReviewDate", "ReviewerLocation",
    "ReviewerContribution", "ReviewHelpfulVotes", "ReviewStar", "ReviewText",
    "DateOfStay", "TripType", "RatingsDetail", "ResponseDetails"]

  const ResponseNames: seq<string> := ["ResponderName", "ResponseDate", "ResponseText"]

  function OptStrJson(o: Option<string>): Json {
    match o
    case None => JNull
    case Some(s) => JStr(s)
  }

  function OptIntJson(o: Option<int>): Json {
    match o
    case None => JNull
    case Some(n) => JInt(n)
  }

  function NaNIntJson(o: OrNaN<int>): Json {
    match o
    case NaN => JNaN
    case Val(n) => JInt(n)
  }

  function NaNStrJson(o: OrNaN<string>): Json {
    match o
    case NaN => JNaN
    case Val(s) => JStr(s)
  }

  function RatingsJson(d: seq<(string, OrNaN<int>)>): seq<(string, Json)>
    decreases |d|
  {
    if |d| == 0 then [] else [(d[0].0, NaNIntJson(d[0].1))] + RatingsJson(d[1..])
  }

  function ResponseJson(r: Response): Json {
    JObject([
      (ResponseNames[0], OptStrJson(r.responderName)),
      (ResponseNames[1], OptStrJson(r.responseDate)),
      (ResponseNames[2], OptStrJson(r.responseText))])
  }

  /** The dict literal the loop writes for one record. */
  function RecordJson(r: ReviewRecord): (j: Json)
    ensures j.JObject? && Keys(j.members) == FieldNames
  {
    JObject([
      (FieldNames[0], JStr(r.link)),
      (FieldNames[1], OptStrJson(r.hotelName)),
      (FieldNames[2], OptStrJson(r.hotelAddress)),
      (FieldNames[3], OptIntJson(r.countReviews)),
      (FieldNames[4], JStr(r.reviewerName)),
      (FieldNames[5], JStr(r.reviewerProfile)),
      (FieldNames[6], NaNStrJson(r.reviewId)),
      (FieldNames[7], JStr(r.reviewDate)),
      (FieldNames[8], JStr(r.reviewerLocation)),
      (FieldNames[9], NaNIntJson(r.reviewerContribution)),
      (FieldNames[10], NaNIntJson(r.reviewHelpfulVotes)),
      (FieldNames[11], NaNIntJson(r.reviewStar)),
      (FieldNames[12], OptStrJson(r.reviewText)),
      (FieldNames[13], OptStrJson(r.dateOfStay)),
      (FieldNames[14], OptStrJson(r.tripType)),
      (FieldNames[15], JObject(RatingsJson(r.ratingsDetail))),
      (FieldNames[16], ResponseJson(r.responseDetails))])
  }

  // Readers of the dict, used to state that it loses nothing.

  function AsStr(j: Json): Option<string> {
    match j
    case JStr(s) => Some(s)
    case _ => None
  }

  function AsOptStr(j: Json): Option<Option<string>> {
    match j
    case JNull => Some(None)
    case JStr(s) => Some(Some(s))
    case _ => None
  }

  function AsOptInt(j: Json): Option<Option<int>> {
    match j
    case JNull => Some(None)
    case JInt(n) => Some(Some(n))
    case _ => None
  }

  function AsNaNInt(j: Json): Option<OrNaN<int>> {
    match j
    case JNaN => Some(NaN)
    case JInt(n) => Some(Val(n))
    case _ => None
  }

  function AsNaNStr(j: Json): Option<OrNaN<string>> {
    match j
    case JNaN => Some(NaN)
    case JStr(s) => Some(Val(s))
    case _ => None
  }

  function AsRatings(m: seq<(string, Json)>): Option<seq<(string, OrNaN<int>)>>
    decreases |m|
  {
    if |m| == 0 then Some([])
    else
      var v :- AsNaNInt(m[0].1);
      var rest :- AsRatings(m[1..]);
      Some([(m[0].0, v)] + rest)
  }

  function AsResponse(j: Json): Option<Response> {
    if !j.JObject? || Keys(j.members) != ResponseNames then None
    else
      var m := j.members;
      var name :- AsOptStr(m[0].1);
      var date :- AsOptStr(m[1].1);
      var text :- AsOptStr(m[2].1);
      Some(Response(name, date, text))
  }

  /** Reads a record back from its dict: absent unless the keys are exactly
      the record's, in order, and every value has its field's type. */
  function RecordFromJson(j: Json): Option<ReviewRecord> {
    if !j.JObject? || Keys(j.members) != FieldNames then None
    else
      var m := j.members;
      var ratings := if m[15].1.JObject? then AsRatings(m[15].1.members) else None;
      if && AsStr(m[0].1).Some? && AsOptStr(m[1].1).Some? && AsOptStr(m[2].1).Some?
         && AsOptInt(m[3].1).Some? && AsStr(m[4].1).Some? && AsStr(m[5].1).Some?
         && AsNaNStr(m[6].1).Some? && AsStr(m[7].1).Some? && AsStr(m[8].1).Some?
         && AsNaNInt(m[9].1).Some? && AsNaNInt(m[10].1).Some? && AsNaNInt(m[11].1).Some?
         && AsOptStr(m[12].1).Some? && AsOptStr(m[13].1).Some? && AsOptStr(m[14].1).Some?
         && ratings.Some? && AsResponse(m[16].1).Some?
      then
        Some(ReviewRecord(
          AsStr(m[0].1).value, AsOptStr(m[1].1).value, AsOptStr(m[2].1).value,
          AsOptInt(m[3].1).value, AsStr(m[4].1).value, AsStr(m[5].1).value,
          AsNaNStr(m[6].1).value, AsStr(m[7].1).value, AsStr(m[8].1).value,
          AsNaNInt(m[9].1).value, AsNaNInt(m[10].1).value, AsNaNInt(m[11].1).value,
          AsOptStr(m[12].1).value, AsOptStr(m[13].1).value, AsOptStr(m[14].1).value,
          ratings.value, AsResponse(m[16].1).value))
      else None
  }

  lemma {:induction false} RatingsRoundTrip(d: seq<(string, OrNaN<int>)>)
    ensures AsRatings(RatingsJson(d)) == Some(d)
    decreases |d|
  {
    if |d| > 0 {
      RatingsRoundTrip(d[1..]);
      assert RatingsJson(d)[1..] == RatingsJson(d[1..]);
      assert [d[0]] + d[1..] == d;
    }
  }

  lemma ResponseRoundTrip(r: Response)
    ensures AsResponse(ResponseJson(r)) == Some(r)
  {
    var m := ResponseJson(r).members;
    assert Keys(m) == ResponseNames;
  }

  /** Each value of the record dict reads back as its field. */
  lemma RecordFieldsRead(r: ReviewRecord)
    ensures var m := RecordJson(r).members;
            && AsStr(m[0].1) == Some(r.link)
            && AsOptStr(m[1].1) == Some(r.hotelName)
            && AsOptStr(m[2].1) == Some(r.hotelAddress)
            && AsOptInt(m[3].1) == Some(r.countReviews)
            && AsStr(m[4].1) == Some(r.reviewerName)
            && AsStr(m[5].1) == Some(r.reviewerProfile)
            && AsNaNStr(m[6].1) == Some(r.reviewId)
            && AsStr(m[7].1) == Some(r.reviewDate)
            && AsStr(m[8].1) == Some(r.reviewerLocation)
            && AsNaNInt(m[9].1) == Some(r.reviewerContribution)
            && AsNaNInt(m[10].1) == Some(r.reviewHelpfulVotes)
            && AsNaNInt(m[11].1) == Some(r.reviewStar)
            && AsOptStr(m[12].1) == Some(r.reviewText)
            && AsOptStr(m[13].1) == Some(r.dateOfStay)
            && AsOptStr(m[14].1) == Some(r.tripType)
            && m[15].1 == JObject(RatingsJson(r.ratingsDetail))
            && m[16].1 == ResponseJson(r.responseDetails)
  {
  }

  /** The dict written for a record holds the whole record: reading it back
      gives the same record. */
  lemma RecordRoundTrip(r: ReviewRecord)
    ensures RecordFromJson(RecordJson(r)) == Some(r)
  {
    RecordFieldsRead(r);
    RatingsRoundTrip(r.ratingsDetail);
    ResponseRoundTrip(r.responseDetails);
  }
}

=== FILE: scans.dfy ===
/** The three fixed regular expressions of the scraper, each written out as a
    left-to-right scan over the text, as Python's `re` module performs it:
    a literal followed by an ASCII digit run (`Reviews\-or\d+`,
    `ui\_bubble\_rating bubble\_\d+`) and a literal with an optional
    trailing `s` (`contributions?`, `helpful votes?`). */
module Scans {
  import opened Wrappers
  import opened PyStr

  /** Length of the digit run `\d+` takes at the start of `s` (greedy). */
  function DigitRun(s: string): (n: nat)
    ensures n <= |s|
    ensures forall i :: 0 <= i < n ==> IsDigit(s[i])
    ensures n < |s| ==> !IsDigit(s[n])
    decreases |s|
  {
    if |s| > 0 && IsDigit(s[0]) then 1 + DigitRun(s[1..]) else 0
  }

  /** `token + \d+` matches at index `i` of `s`. */
  predicate NumberedAt(s: string, token: string, i: int) {
    OccursAt(s, token, i) && i + |token| < |s| && IsDigit(s[i + |token|])
  }

  /** `re.sub(token + r"\d+", repl, s)`: each match, found left to right and
      taking the whole digit run, is replaced by `repl`. */
  function SubNumbered(s: string, token: string, repl: string): string
    decreases |s|
  {
    if |s| == 0 then []
    else if NumberedAt(s, token, 0) then
      var tail := s[|token|..];
      repl + SubNumbered(tail[DigitRun(tail)..], token, repl)
    else [s[0]] + SubNumbered(s[1..], token, repl)
  }

  /** The index where `re.search(token + r"\d+", s[k:])` matches, if anywhere. */
  function FirstNumbered(s: string, token: string, k: nat): (r: Option<nat>)
    ensures r.Some? ==> k <= r.value && NumberedAt(s, token, r.value)
    ensures r.Some? ==> forall j :: k <= j < r.value ==> !NumberedAt(s, token, j)
    ensures r.None? <==> forall j :: k <= j ==> !NumberedAt(s, token, j)
    decreases |s| - k
  {
    if k >= |s| then None
    else if NumberedAt(s, token, k) then Some(k)
    else FirstNumbered(s, token, k + 1)
  }

  /** `re.sub(marker + "s?", "", s)`: every occurrence of `marker`, together
      with one `s` right after it if there is one, is removed. */
  function RemoveLabel(s: string, marker: string): string
    requires |marker| > 0
    decreases |s|
  {
    if |s| == 0 then []
    else if OccursAt(s, marker, 0) then
      var rest := s[|marker|..];
      if |rest| > 0 && rest[0] == 's' then RemoveLabel(rest[1..], marker) else RemoveLabel(rest, marker)
    else [s[0]] + RemoveLabel(s[1..], marker)
  }

  lemma NumberedAtShift(s: string, token: string, i: int)
    requires |s| > 0 && 0 <= i
    ensures NumberedAt(s[1..], token, i) <==> NumberedAt(s, token, i + 1)
  {
    OccursAtShift(s, token, i);
  }

  /** The greedy digit run stops exactly where the digits stop. */
  lemma DigitRunExact(digits: string, post: string)
    requires forall i :: 0 <= i < |digits| ==> IsDigit(digits[i])
    requires post == [] || !IsDigit(post[0])
    ensures DigitRun(digits + post) == |digits|
  {
    assert forall i :: 0 <= i < |digits| ==> (digits + post)[i] == digits[i];
    if post != [] {
      assert (digits + post)[|digits|] == post[0];
    }
  }

  /** Characters no match starts at are copied through unchanged. */
  lemma {:induction false} SubNumberedCopiesPrefix(pre: string, rest: string, token: string, repl: string)
    requires forall i :: 0 <= i < |pre| ==> !NumberedAt(pre + rest, token, i)
    ensures SubNumbered(pre + rest, token, repl) == pre + SubNumbered(rest, token, repl)
    decreases |pre|
  {
    if |pre| == 0 {
      assert pre + rest == rest;
    } else {
      var s := pre + rest;
      assert !NumberedAt(s, token, 0);
      assert s[1..] == pre[1..] + rest;
      forall i | 0 <= i < |pre[1..]| ensures !NumberedAt(pre[1..] + rest, token, i) {
        NumberedAtShift(s, token, i);
      }
      assert SubNumbered(s, token, repl) == [s[0]] + SubNumbered(s[1..], token, repl);
      SubNumberedCopiesPrefix(pre[1..], rest, token, repl);
      assert [s[0]] + (pre[1..] + SubNumbered(rest, token, repl)) == ([pre[0]] + pre[1..]) + SubNumbered(rest, token, repl);
      assert [pre[0]] + pre[1..] == pre;
    }
  }

  /** A text with no match is left as it is. */
  lemma SubNumberedAbsent(s: string, token: string, repl: string)
    requires forall i :: !NumberedAt(s, token, i)
    ensures SubNumbered(s, token, repl) == s
  {
    assert s + [] == s;
    SubNumberedCopiesPrefix(s, [], token, repl);
  }

  /** A match at the start: the token and its whole digit run become `repl`. */
  lemma SubNumberedLeading(token: string, digits: string, post: string, repl: string)
    requires |digits| > 0 && forall i :: 0 <= i < |digits| ==> IsDigit(digits[i])
    requires post == [] || !IsDigit(post[0])
    ensures SubNumbered(token + digits + post, token, repl) == repl + SubNumbered(post, token, repl)
  {
    var u := token + digits + post;
    assert u[0..|token|] == token;
    assert u[|token|] == digits[0];
    assert NumberedAt(u, token, 0);
    var tail := u[|token|..];
    assert tail == digits + post;
    DigitRunExact(digits, post);
    assert tail[|digits|..] == post;
  }

  /** A text with exactly one match: only the token and its digits change. */
  lemma SubNumberedSingle(pre: string, token: string, digits: string, post: string, repl: string)
    requires forall i :: 0 <= i < |pre| ==> !NumberedAt(pre + token + digits + post, token, i)
    requires |digits| > 0 && forall i :: 0 <= i < |digits| ==> IsDigit(digits[i])
    requires post == [] || !IsDigit(post[0])
    requires forall i :: !NumberedAt(post, token, i)
    ensures SubNumbered(pre + token + digits + post, token, repl) == pre + repl + post
  {
    var u := token + digits + post;
    assert pre + token + digits + post == pre + u;
    SubNumberedCopiesPrefix(pre, u, token, repl);
    SubNumberedLeading(token, digits, post, repl);
    SubNumberedAbsent(post, token, repl);
    assert pre + (repl + post) == pre + repl + post;
  }

  /** Characters no marker occurrence starts at are copied through unchanged. */
  lemma {:induction false} RemoveLabelCopiesPrefix(pre: string, rest: string, marker: string)
    requires |marker| > 0
    requires forall i :: 0 <= i < |pre| ==> !OccursAt(pre + rest, marker, i)
    ensures RemoveLabel(pre + rest, marker) == pre + RemoveLabel(rest, marker)
    decreases |pre|
  {
    if |pre| == 0 {
      assert pre + rest == rest;
    } else {
      var s := pre + rest;
      assert !OccursAt(s, marker, 0);
      assert s[1..] == pre[1..] + rest;
      forall i | 0 <= i < |pre[1..]| ensures !OccursAt(pre[1..] + rest, marker, i) {
        OccursAtShift(s, marker, i);
      }
      assert RemoveLabel(s, marker) == [s[0]] + RemoveLabel(s[1..], marker);
      RemoveLabelCopiesPrefix(pre[1..], rest, marker);
      assert [s[0]] + (pre[1..] + RemoveLabel(rest, marker)) == ([pre[0]] + pre[1..]) + RemoveLabel(rest, marker);
      assert [pre[0]] + pre[1..] == pre;
    }
  }

  /** A trailing marker, singular or plural, is removed entirely. */
  lemma RemoveLabelTrailing(marker: string, plural: string)
    requires |marker| > 0
    requires plural == "" || plural == "s"
    ensures RemoveLabel(marker + plural, marker) == []
  {
    var s := marker + plural;
    assert s[0..|marker|] == marker;
    assert s[|marker|..] == plural;
  }

  /** The first match is the one right after `pre` when `pre` holds none. */
  lemma FirstNumberedAfter(pre: string, token: string, digits: string, post: string)
    requires forall j :: 0 <= j < |pre| ==> !NumberedAt(pre + token + digits + post, token, j)
    requires |digits| > 0 && IsDigit(digits[0])
    ensures FirstNumbered(pre + token + digits + post, token, 0) == Some(|pre|)
    ensures (pre + token + digits + post)[|pre| + |token|..] == digits + post
  {
    var s := pre + token + digits + post;
    assert s == pre + (token + (digits + post));
    assert s[|pre|..|pre| + |token|] == token;
    assert s[|pre| + |token|..] == digits + post;
    assert NumberedAt(s, token, |pre|);
  }
}

=== FILE: stream.dfy ===
/** The output stream of a crawl: the entries each item yields, appended item
    after item. */
module Stream {
  /** `for x in items: for e in f(x): write(e)`, as the sequence written. */
  function FlatMap<P, R>(items: seq<P>, f: P -> seq<R>): seq<R>
    decreases |items|
  {
    if |items| == 0 then [] else f(items[0]) + FlatMap(items[1..], f)
  }

  /** Processing two lists one after the other appends their streams. */
  lemma {:induction false} FlatMapAppend<P, R>(a: seq<P>, b: seq<P>, f: P -> seq<R>)
    ensures FlatMap(a + b, f) == FlatMap(a, f) + FlatMap(b, f)
    decreases |a|
  {
    if |a| == 0 {
      assert a + b == b;
    } else {
      assert (a + b)[0] == a[0];
      assert (a + b)[1..] == a[1..] + b;
      FlatMapAppend(a[1..], b, f);
    }
  }

  /** The entries of the i-th item form one block, right after the entries
      of every earlier item. */
  lemma FlatMapBlock<P, R>(items: seq<P>, f: P -> seq<R>, i: int)
    requires 0 <= i < |items|
    ensures var start := |FlatMap(items[..i], f)|;
            && start + |f(items[i])| <= |FlatMap(items, f)|
            && FlatMap(items, f)[start..start + |f(items[i])|] == f(items[i])
  {
    var front := items[..i];
    var back := items[i + 1..];
    assert items == front + ([items[i]] + back);
    FlatMapAppend(front, [items[i]] + back, f);
    assert FlatMap([items[i]] + back, f) == f(items[i]) + FlatMap(back, f) by {
      assert ([items[i]] + back)[0] == items[i];
      assert ([items[i]] + back)[1..] == back;
    }
    var x := f(items[i]);
    var a := FlatMap(front, f);
    assert (a + (x + FlatMap(back, f)))[|a|..|a| + |x|] == x;
  }
}

=== FILE: wrappers.dfy ===
/** The two absent markers the scraper returns instead of raising. */
module Wrappers {

  /** Python's `None` beside a present value. Usable with `:-`. */
  datatype Option<+T> = None | Some(value: T) {

    predicate IsFailure() {
      None?
    }

    function PropagateFailure<U>(): Option<U>
      requires None?
    {
      None
    }

    function Extract(): T
      requires Some?
    {
      value
    }

    /** The value, or `default` when absent. */
    function GetOr(default: T): T {
      match this
      case Some(v) => v
      case None => default
    }
  }

  /** `np.nan` beside a present value. It is a different absent marker from
      `None`: the record stream writes it as `NaN`, not `null`. */
  datatype OrNaN<+T> = NaN | Val(value: T)
}
